=== FILE: README.md ===
# Incremental profile extraction, modelled in Dafny

A chat agent collects a small record about the person it is talking to, one
message at a time. Two kinds of record exist: the user profile (`name`,
`location`, `occupation`) and the NFT request (`name`, `description`,
`recipient`). Three pieces of code work on the record. They share the agent's
cache slot `${agentName}/${userId}/data`.

- The evaluator (`agent/src/userDataEvaluator.ts`) has two parts. `validate`
  lets extraction run only while the stored record is incomplete. `handler`
  merges a language-model extraction result into the record, first write
  wins. When something new was learnt, it stamps `lastUpdated` and writes the
  record back with a one-week expiry.
- The status providers (`agent/src/userDataProvider.ts`,
  `agent/src/nftDataProvider.ts`) render the stored record as advisory text.
  The text is a header, then the known fields, then exactly one of two tails:
  a guidance block for every missing field, or the fixed "all collected"
  status. Any error gives a fixed fallback sentence.
- The completion provider gives a fixed directive once the user profile is
  complete, and `""` otherwise.

The model has one generic engine. It is parameterised by a `Schema`: the
ordered field names plus the guidance table. The two concrete schemas are
instances of it.

- `Records`: the record and its three field states (undefined, `""`,
  non-empty), plus `Missing`, `Complete` and the known keys.
- `Store`: the cache, the cache key, and failing reads.
- `Extraction`: `validate`, the merge loop and the handler.
- `Status`: the report and its text, and the completion signal.
- `UserProfile` and `NftRequest`: the two instances.
- `Seqs` and `Schemas`: general sequence vocabulary and the schema type.

A record keeps its own key order next to its values. The known-field list is
built from `Object.entries`, so it follows the object's insertion order. A
record created from the empty record has schema order. A key written later
goes last. This rests on an assumption about the cache: it returns a record
exactly as it was written, with keys that hold `undefined` kept in place.
Under that assumption, when the user evaluator fills the shared slot, the NFT
provider reads the user's `location` and `occupation` as known entries once
they hold a value, just as `Object.entries` would; while they are undefined
they are not listed.

The cache drops an entry once its `expires` time is reached. The cache
manager does this outside the code modelled here. `Store.Evict` states that
behaviour as an assumption, and `Extraction.WrittenEntryExpires` uses it. The
handler runs themselves are modelled against a cache that drops nothing.

Everything the code gets from outside is a parameter:

- whether the cache read and the cache write succeed;
- the extraction result, or `None` when the model call throws;
- the two `Date.now()` readings (`lastUpdated`, and the base of `expires`).

Two behaviours of the source are easy to misread:

- The completion hook runs on every handler run that does not throw and ends
  with a complete record, including a run that writes nothing
  (`agent/src/userDataEvaluator.ts:123-129`). `Extraction.Handle` states this
  both ways, and `Extraction.HandleCompletedWithoutWrite` states the run that
  writes nothing.
- A failed cache read makes `validate` answer `false`
  (`agent/src/userDataEvaluator.ts:69-71`). The status provider answers its
  fallback sentence and the completion provider answers `""`
  (`agent/src/userDataProvider.ts:126-128`, `:147-149`). None of them goes on
  with an empty record.

## Model

| member | source | states |
|---|---|---|
| Records.Missing | agent/src/userDataEvaluator.ts:31-40 | a field is listed iff it is a schema field whose value is undefined or empty, and the list keeps schema order (an order-preserving subsequence of the fields) |
| Records.MissingUnique | agent/src/userDataEvaluator.ts:39 | any order-preserving subsequence of the schema whose members are exactly the unfilled fields equals the missing list |
| Records.MissingDistinct | agent/src/userDataEvaluator.ts:39 | the missing list has no duplicates |
| Records.Empty | agent/src/userDataEvaluator.ts:19-24 | `emptyUserData`: every schema field present and undefined, in schema order, and no timestamp |
| Records.CompleteIff | agent/src/userDataEvaluator.ts:42-44 | `isDataComplete` holds iff every schema field is non-empty |
| Records.KnownKeys | agent/src/userDataProvider.ts:74-78 | the listed keys are exactly the record's keys other than `lastUpdated` that hold a defined value, in the object's key order |
| Records.EmptyStringIsMissingAndKnown | agent/src/userDataProvider.ts:77 | a field stored as `""` counts as missing and is still listed as known |
| Store.CacheKeyInjective | agent/src/userDataEvaluator.ts:27-29 | for agent names without '/', equal keys mean the same agent and the same user |
| Store.CacheKeyCollision | agent/src/nftDataProvider.ts:37-39 | with a '/' in the agent name, two different agent/user pairs share one key |
| Store.LoadAvailable | agent/src/userDataEvaluator.ts:65-67 | a successful read yields the cached record, or the empty record on a miss; a failed read yields nothing |
| Extraction.Fill | agent/src/userDataEvaluator.ts:111 | assigning an undefined field changes that key only, keeps the timestamp, and never reorders existing keys |
| Extraction.Merge | agent/src/userDataEvaluator.ts:108-114 | first write wins; a field changes iff it is a schema field, the stored value is undefined and the extracted value is non-empty, and then it takes the extracted value; `dataUpdated` iff some field changed; no change leaves the record as it was |
| Extraction.MergeComplete | agent/src/userDataEvaluator.ts:110 | merging into a complete record changes nothing and sets no update |
| Extraction.MergeIdempotent | agent/src/userDataEvaluator.ts:108-114 | merging the same extraction result twice sets no update the second time |
| Extraction.MergeMonotone | agent/src/userDataEvaluator.ts:108-114 | a merge never un-fills a field, so the missing list only shrinks |
| Extraction.EmptyStringNeverRefilled | agent/src/userDataEvaluator.ts:110 | a field stored as `""` is missing before the merge, keeps `""` after it, and stays missing |
| Extraction.Validate | agent/src/userDataEvaluator.ts:59-73 | the gate opens iff the read succeeds and some schema field of the stored (or empty) record is unfilled |
| Extraction.Stamp | agent/src/userDataEvaluator.ts:117 | `lastUpdated` takes the clock reading; every field and the key order stay as they were |
| Extraction.Handle | agent/src/userDataEvaluator.ts:75-132 | only the sender's slot can change and no slot is dropped; a failed read or extraction has no effect; the store changes iff a field was learnt and the write succeeded; a written entry carries the new timestamp, expiry `now + 604800000`, the merged fields, and the stored keys in their order; the completion hook fires iff the run does not throw and the merged record is complete, whether or not anything was written |
| Extraction.HandleFirstWriteWins | agent/src/userDataEvaluator.ts:108-121 | a value the stored record holds is the same after the handler |
| Extraction.HandleLeavesCompleteRecord | agent/src/userDataEvaluator.ts:110-121 | a complete stored record is not written |
| Extraction.HandleCompletionEdge | agent/src/userDataEvaluator.ts:116-129 | an incomplete record reaches the completion hook only through a write, and a successful write that completes the record always reaches it |
| Extraction.HandleCompletedWithoutWrite | agent/src/userDataEvaluator.ts:106-129 | on a complete stored record a run that does not throw writes nothing and still reaches the completion hook |
| Extraction.HandleFirstContact | agent/src/userDataEvaluator.ts:78-121 | a first successful write into an empty slot stores exactly the accepted fields; every other key reads as undefined |
| Extraction.Replay | agent/src/userDataEvaluator.ts:75-132 | over a sequence of handler runs, slots are only added, only the senders' slots, and a slot no run addresses keeps its entry |
| Extraction.ReplayFirstWriteWins | agent/src/userDataEvaluator.ts:108-121 | across any sequence of messages, while the entry has not expired, a stored value is never replaced |
| Extraction.ReplayCompleteIsFinal | agent/src/userDataEvaluator.ts:110-121 | across any sequence of messages, while the entry has not expired, the entry of a complete record never changes |
| Extraction.CompletedClosesGate | agent/src/userDataEvaluator.ts:59-73 | after the completion hook fires, `validate` closes the gate |
| Extraction.WrittenEntryExpires | agent/src/userDataEvaluator.ts:118-120 | once a written entry's one-week expiry has passed and the cache has dropped it, the next read yields the empty record and the gate opens again, however complete the record was |
| Status.KnownEntries | agent/src/userDataProvider.ts:74-82 | the known entries are the known keys in key order, each with its stored value |
| Schemas.Capitalise | agent/src/userDataProvider.ts:81 | `key.charAt(0).toUpperCase() + key.slice(1)`: same length, first character upper-cased, the rest unchanged |
| Status.KnownLine | agent/src/userDataProvider.ts:79-86 | a known line is `- `, the capitalised key and `: `, then the value, and nothing else |
| Seqs.JoinLayout | agent/src/userDataProvider.ts:86 | `join(sep)` puts each part at its offset after every earlier part and separator, a separator after every part but the last, and nothing after the last |
| Status.KnownText | agent/src/userDataProvider.ts:84-88 | the "Current Information" section is empty iff nothing is known; otherwise it is the heading, then the entries' `- Key: value` lines joined by a line break, in order, then a blank line |
| Status.BlockText | agent/src/userDataProvider.ts:101-108 | a guidance block is the capitalised field name, then the description, valid examples, do-not-extract and instructions lines, each at its own offset, and a blank line; its length leaves room for nothing else |
| Status.GatherBody | agent/src/userDataProvider.ts:94-108 | the gathering text after the opening names the agent first, then holds the request that the agent ask the user and the "Missing Information and Extraction Guidelines:" heading, and ends with the blocks' texts, in order |
| Status.TaskText | agent/src/userDataProvider.ts:93-123 | the "all collected" tail is the fixed status text; the gathering tail starts with `CURRENT TASK FOR ` and the agent's name, holds the request to ask the user right after it, and ends with the guidance blocks, in order, followed by the overall guidance |
| Status.ReportText | agent/src/userDataProvider.ts:71-125 | the text starts with the header, and the known section follows right after it; it ends with the "all collected" status iff the report is complete, and otherwise with the guidance blocks, in order, then the overall guidance; after the header, "Current Information:" comes first iff some entry is known |
| Status.Assess | agent/src/userDataProvider.ts:74-108 | no report iff some missing field has no guidance entry; the known entries in key order with their values; the "all collected" tail iff complete; otherwise one block per unfilled field, in schema order, carrying that field's guidance |
| Status.TwoBlocks | agent/src/userDataProvider.ts:101-108 | with two fields missing, the two guidance blocks come in missing-list order |
| Status.ReportKnownSection | agent/src/userDataProvider.ts:84-88 | the body opens with "Current Information:" iff some entry is known |
| Status.Render | agent/src/userDataProvider.ts:60-130 | a failed read answers the fallback; with complete guidance a successful read starts with the header |
| Status.RenderReport | agent/src/userDataProvider.ts:66-91 | a successful read is rendered from the report of the stored or empty record |
| Status.RenderBranches | agent/src/userDataProvider.ts:93-123 | exactly one tail: "all collected" iff the stored record is complete, the overall guidance iff not |
| Status.RenderKnownSection | agent/src/userDataProvider.ts:74-88 | "Current Information:" follows the header iff some key other than `lastUpdated` holds a defined value |
| Status.RenderContents | agent/src/userDataProvider.ts:74-108 | for a successful read, the stored record's known lines follow the header; an incomplete record's text ends with one guidance block per missing field, in schema order, each with that field's guidance, then the overall guidance |
| Status.RenderOneKnown | agent/src/userDataProvider.ts:71-88 | with a single known entry, the text is the header, the heading, that entry's line, a blank line, then the tail |
| Status.CompletionSignal | agent/src/userDataProvider.ts:134-152 | the directive iff the read succeeds and the stored record is complete, `""` otherwise |
| Status.CompletionAgreesWithStatus | agent/src/userDataProvider.ts:118-152 | the completion signal is non-empty iff the status text ends with the "all collected" status |
| UserProfile.GuidanceTableComplete | agent/src/userDataProvider.ts:12-32 | every user field has guidance with all four parts non-empty |
| UserProfile.MissingFields | agent/src/userDataEvaluator.ts:31-40 | the missing list is the unfilled fields among name, location, occupation, in that order |
| UserProfile.DataCompleteIff | agent/src/userDataEvaluator.ts:42-44 | `isDataComplete` iff name, location and occupation are all non-empty |
| UserProfile.ValidateOnFirstContact | agent/src/userDataEvaluator.ts:63-68 | a user without a cache entry reads as `emptyUserData`, so extraction runs |
| UserProfile.ValidateAgreesWithStatus | agent/src/userDataProvider.ts:93-129 | the evaluator's gate is open iff the status text ends with the overall guidance |
| UserProfile.CompletionMatchesStatus | agent/src/userDataProvider.ts:134-152 | the directive is given iff the status text ends with the "all collected" status; otherwise the answer is `""` |
| UserProfile.NameOnlyMissing | agent/src/userDataEvaluator.ts:39 | a record holding only a name misses location, then occupation |
| UserProfile.NameOnlyKnown | agent/src/userDataProvider.ts:74-78 | a record holding only a name lists only `name` as known |
| UserProfile.NameLine | agent/src/userDataProvider.ts:81-86 | the known line for a name reads `- Name: <name>` |
| UserProfile.NameOnlyStatus | agent/src/userDataProvider.ts:74-108 | a name-only record reports the name as known and asks for location, then occupation, with their guidance |
| UserProfile.NameOnlyText | agent/src/userDataProvider.ts:71-117 | the status text for a name-only record, in full: the header, "Current Information:" with `- Name: <name>` and a blank line, then the gathering tail with the location block and the occupation block |
| UserProfile.NameNotReplaced | agent/src/userDataEvaluator.ts:108-121 | a later, different name leaves the store as it was |
| NftRequest.GuidanceTableComplete | agent/src/nftDataProvider.ts:12-34 | every NFT field has guidance with all four parts non-empty |
| NftRequest.MissingFields | agent/src/nftDataProvider.ts:41-50 | the missing list is the unfilled fields among name, description, recipient, in that order |
| NftRequest.StatusBranches | agent/src/nftDataProvider.ts:65-117 | the NFT status starts with its header; it ends with "all collected" iff all three fields are non-empty, and with the overall guidance iff not |
| NftRequest.StatusOnReadError | agent/src/nftDataProvider.ts:120-123 | a failed read answers the NFT fallback, which ends with neither tail |
| NftRequest.NameWriteSeenAsNft | agent/src/nftDataProvider.ts:37-63 | a first name written under any schema that has a name field is read by the NFT provider as the NFT's name, leaving description and recipient missing |
| NftRequest.UserNameReadAsNftName | agent/src/nftDataProvider.ts:37-39 | the user evaluator and the NFT provider share a slot: a user's first stored name is read as the NFT's name |

## Left out

- The language-model call and its prompt. The extraction result is an input:
  a map from keys to strings, or nothing when the call throws.
- Values that are not strings. If the model returns a number or an object for
  a field, JavaScript truthiness and `${value}` differ from the string case.
  Only strings are modelled.
- Cache expiry inside the handler runs. The cache manager enforces it, and
  `Store.Evict` states it only as an assumption. Handler runs see a cache
  that drops nothing, and an entry only carries the `expires` value it was
  written with.
- Extraction.ReplayFirstWriteWins: holds only while no entry expires between
  the messages. Once a written entry's week has passed and the cache drops
  it, collection starts over from the empty record
  (`Extraction.WrittenEntryExpires`), so a value may then be stored anew.
- Extraction.ReplayCompleteIsFinal: holds only while no entry expires between
  the messages. An expired complete record is gone, and the next message
  opens the gate again (`Extraction.WrittenEntryExpires`).
- `elizaLogger` output, the `examples` array, and the persona and wallet code.
  None of them affects the record or the text.
- Concurrent handler runs for the same user. Each run is modelled as one
  atomic step. `Extraction.Replay` composes runs in sequence.
- `toUpperCase` on non-ASCII first letters. `Schemas.UpperChar` maps only
  `a`–`z`. Every field name in both schemas is ASCII.
- Aliasing of the cached object. The handler mutates the object it read. The
  model writes a new record, and only when the write succeeds.
- The NFT record type, its empty record and its evaluator come from
  `agent/src/nftDataEvaluator.ts`, which is not part of this model. The NFT
  record's shape is inferred from its missing-fields list, with every field
  undefined in the empty record. No NFT handler is modelled.
- The commented-out NFT completion provider (`agent/src/nftDataProvider.ts:128-153`).
- Status.Render: its own contract states only the fallback and the header.
  The rest is stated by three lemmas, under the condition that every field
  has guidance. `Status.RenderBranches` states which tail ends the text.
  `Status.RenderKnownSection` states when the "Current Information:" heading
  is present. `Status.RenderContents` states that the known section follows
  the header and that the missing fields' guidance blocks precede the overall
  guidance.
- Status.Assess: a schema field missing from the guidance table makes the
  source throw (`guidance.description` of `undefined`), and the catch answers
  the fallback. The model says `None` there. Both concrete tables are proved
  complete, so this never happens for them.

=== FILE: extraction.dfy ===
/** The extraction evaluator: the `validate` gate and the `handler` that merges
    an extraction result into the stored record, first write wins, and writes
    the record back with a one-week expiry when something new was learnt. The
    language-model call is an input: `None` when it throws, otherwise the
    string-valued object it returned. */
module Extraction {
  import opened Optional
  import opened Seqs
  import opened Schemas
  import opened Records
  import opened Store

  /** `7 * 24 * 60 * 60 * 1000`: one week in milliseconds. */
  const WeekMs: int := 7 * 24 * 60 * 60 * 1000

  /** The merge loop's test for one field:
      `extractedInfo[field] && cachedData[field] === undefined`. */
  predicate Accepts(r: Record, f: string, extracted: map<string, string>) {
    Lookup(r, f) == None && f in extracted && extracted[f] != ""
  }

  /** `cachedData[field] = value`: an existing key keeps its place in the key
      order, a new key goes last. */
  function Fill(r: Record, f: string, v: string): (r': Record)
    requires Lookup(r, f) == None
    ensures forall k :: Lookup(r', k) == if k == f then Some(v) else Lookup(r, k)
    ensures r'.lastUpdated == r.lastUpdated
    ensures r.order <= r'.order
  {
    if f in r.values then
      r.(values := r.values[f := Some(v)])
    else
      assert f !in r.order;
      var r1 := r.(order := r.order + [f], values := r.values[f := Some(v)]);
      assert forall k :: k in r1.values <==> k in r1.order;
      r1
  }

  /** The record after the merge loop, and whether `dataUpdated` was set. */
  datatype Merged = Merged(record: Record, updated: bool)

  /** The merge loop over `fields`, in order. */
  function Merge(fields: seq<string>, r: Record, extracted: map<string, string>): (m: Merged)
    // first write wins: a defined value is never replaced
    ensures forall k :: Lookup(r, k).Some? ==> Lookup(m.record, k) == Lookup(r, k)
    // a field changes exactly when the loop accepts it, and then takes the extracted value
    ensures forall k :: Lookup(m.record, k) == if k in fields && Accepts(r, k, extracted) then Some(extracted[k]) else Lookup(r, k)
    ensures m.updated <==> exists k :: k in fields && Accepts(r, k, extracted)
    ensures !m.updated ==> m.record == r
    ensures m.record.lastUpdated == r.lastUpdated
    ensures r.order <= m.record.order
    decreases |fields|
  {
    if fields == [] then Merged(r, false)
    else
      var f := fields[0];
      assert forall k :: k in fields <==> k == f || k in fields[1..];
      if Accepts(r, f, extracted) then
        var r1 := Fill(r, f, extracted[f]);
        var rest := Merge(fields[1..], r1, extracted);
        assert forall k :: k != f ==> Accepts(r1, k, extracted) == Accepts(r, k, extracted);
        assert !Accepts(r1, f, extracted);
        Merged(rest.record, true)
      else
        Merge(fields[1..], r, extracted)
  }

  /** Merging a complete record changes nothing and reports no update. */
  lemma MergeComplete(fields: seq<string>, r: Record, extracted: map<string, string>)
    requires Complete(fields, r)
    ensures Merge(fields, r, extracted) == Merged(r, false)
  {
    CompleteIff(fields, r);
  }

  /** Merging the same extraction result a second time adds nothing. */
  lemma MergeIdempotent(fields: seq<string>, r: Record, extracted: map<string, string>)
    ensures !Merge(fields, Merge(fields, r, extracted).record, extracted).updated
  {
    var r1 := Merge(fields, r, extracted).record;
    forall k | k in fields ensures !Accepts(r1, k, extracted) {
    }
  }

  /** A merge never un-fills a field, so the missing list can only shrink. */
  lemma MergeMonotone(fields: seq<string>, r: Record, extracted: map<string, string>)
    ensures forall f :: Filled(r, f) ==> Filled(Merge(fields, r, extracted).record, f)
    ensures forall f :: f in Missing(fields, Merge(fields, r, extracted).record) ==> f in Missing(fields, r)
  {
  }

  /** A field present but empty is missing, yet the merge never fills it. */
  lemma EmptyStringNeverRefilled(fields: seq<string>, r: Record, f: string, extracted: map<string, string>)
    requires f in fields && Lookup(r, f) == Some("")
    ensures f in Missing(fields, r)
    ensures Lookup(Merge(fields, r, extracted).record, f) == Some("")
    ensures f in Missing(fields, Merge(fields, r, extracted).record)
  {
  }

  /** `validate`: run extraction only while the stored record is incomplete;
      a failed read answers `false`. */
  function Validate(s: Schema, cache: Cache, agentName: string, userId: string, readOk: bool): (run: bool)
    ensures run <==> readOk && exists f :: f in s.fields && !Filled(Stored(s, cache, CacheKey(agentName, userId)), f)
  {
    var r := Load(s, Fetch(cache, CacheKey(agentName, userId), readOk));
    LoadAvailable(s, cache, CacheKey(agentName, userId), readOk);
    if r.Some? then CompleteIff(s.fields, r.value); !Complete(s.fields, r.value) else false
  }

  /** Everything one `handler` invocation depends on besides the store: the
      message's sender, whether the cache read and write succeed, the
      extraction result (`None` when the call throws), and the two clock readings
      (`lastUpdated` and the base of `expires` each call `Date.now()`). */
  datatype Turn = Turn(
    agentName: string,
    userId: string,
    readOk: bool,
    extraction: Option<map<string, string>>,
    stampAt: int,
    writeAt: int,
    writeOk: bool)

  /** The store after the handler, and whether it reached the completion hook
      (`isDataComplete(cachedData)` after a write that did not throw). */
  datatype Outcome = Outcome(cache: Cache, completed: bool)

  /** The handler writes exactly when the read and the extraction succeeded and
      some field was accepted; the write itself may still fail. */
  predicate Learns(s: Schema, cache: Cache, t: Turn) {
    && t.readOk
    && t.extraction.Some?
    && exists f :: f in s.fields && Accepts(Stored(s, cache, CacheKey(t.agentName, t.userId)), f, t.extraction.value)
  }

  /** `cachedData.lastUpdated = Date.now()`. */
  function Stamp(r: Record, at: int): (r': Record)
    ensures forall k :: Lookup(r', k) == Lookup(r, k)
    ensures r'.order == r.order && r'.lastUpdated == Some(at)
  {
    r.(lastUpdated := Some(at))
  }

  /** `userDataEvaluator.handler`. A successful read yields `Stored` (see
      `Store.LoadAvailable`). */
  function Handle(s: Schema, cache: Cache, t: Turn): (o: Outcome)
    // only the sender's slot can change
    ensures forall k :: k != CacheKey(t.agentName, t.userId) && k in cache ==> k in o.cache && o.cache[k] == cache[k]
    ensures o.cache.Keys <= cache.Keys + {CacheKey(t.agentName, t.userId)}
    // a failed read or extraction is swallowed with no effect
    ensures !t.readOk || t.extraction.None? ==> o == Outcome(cache, false)
    // the store changes exactly when a new field was learnt and the write succeeded
    ensures o.cache != cache <==> Learns(s, cache, t) && t.writeOk
    // a written record carries the new timestamp and a one-week expiry, and holds the merge
    ensures o.cache != cache ==>
      var key := CacheKey(t.agentName, t.userId);
      && key in o.cache
      && o.cache[key].record.lastUpdated == Some(t.stampAt)
      && o.cache[key].expires == t.writeAt + WeekMs
      && forall k :: Lookup(o.cache[key].record, k) ==
           if k in s.fields && Accepts(Stored(s, cache, key), k, t.extraction.value)
           then Some(t.extraction.value[k]) else Lookup(Stored(s, cache, key), k)
    // a written record keeps the stored record's keys in their order
    ensures o.cache != cache ==>
      Stored(s, cache, CacheKey(t.agentName, t.userId)).order <= o.cache[CacheKey(t.agentName, t.userId)].record.order
    // no slot is ever dropped
    ensures cache.Keys <= o.cache.Keys
    // the completion hook fires only on a complete record
    ensures o.completed ==> Complete(s.fields, Stored(s, o.cache, CacheKey(t.agentName, t.userId)))
    // and it fires on every run that does not throw and ends with a complete
    // record, whether or not that run wrote anything
    ensures o.completed <==>
      && t.readOk && t.extraction.Some?
      && (Learns(s, cache, t) ==> t.writeOk)
      && Complete(s.fields, Merge(s.fields, Stored(s, cache, CacheKey(t.agentName, t.userId)), t.extraction.value).record)
  {
    var key := CacheKey(t.agentName, t.userId);
    if !t.readOk || t.extraction.None? then Outcome(cache, false)
    else
      var rec := Stored(s, cache, key);
      var m := Merge(s.fields, rec, t.extraction.value);
      if !m.updated then Outcome(cache, Complete(s.fields, rec))
      else if !t.writeOk then Outcome(cache, false)
      else
        var stamped := Stamp(m.record, t.stampAt);
        var c' := cache[key := Entry(stamped, t.writeAt + WeekMs)];
        assert c' != cache by {
          var f :| f in s.fields && Accepts(rec, f, t.extraction.value);
          assert Lookup(stamped, f) != Lookup(rec, f);
        }
        assert Stored(s, c', key) == stamped;
        CompleteIff(s.fields, stamped);
        CompleteIff(s.fields, m.record);
        Outcome(c', Complete(s.fields, m.record))
  }

  /** First write wins in the store: a value the sender's record already holds survives the handler. */
  lemma HandleFirstWriteWins(s: Schema, cache: Cache, t: Turn, f: string)
    requires Lookup(Stored(s, cache, CacheKey(t.agentName, t.userId)), f).Some?
    ensures Lookup(Stored(s, Handle(s, cache, t).cache, CacheKey(t.agentName, t.userId)), f)
         == Lookup(Stored(s, cache, CacheKey(t.agentName, t.userId)), f)
  {
    var key := CacheKey(t.agentName, t.userId);
    var o := Handle(s, cache, t);
    if o.cache != cache {
      assert Stored(s, o.cache, key) == o.cache[key].record;
    }
  }

  /** A complete record is left alone: nothing is written. */
  lemma HandleLeavesCompleteRecord(s: Schema, cache: Cache, t: Turn)
    requires Complete(s.fields, Stored(s, cache, CacheKey(t.agentName, t.userId)))
    ensures Handle(s, cache, t).cache == cache
  {
    CompleteIff(s.fields, Stored(s, cache, CacheKey(t.agentName, t.userId)));
  }

  /** The Incomplete-to-Complete edge happens only through a write, and a
      successful completing write always reaches the completion hook. */
  lemma HandleCompletionEdge(s: Schema, cache: Cache, t: Turn)
    ensures var o := Handle(s, cache, t);
      o.completed && !Complete(s.fields, Stored(s, cache, CacheKey(t.agentName, t.userId))) ==> o.cache != cache
    ensures var o := Handle(s, cache, t);
      o.cache != cache && Complete(s.fields, Stored(s, o.cache, CacheKey(t.agentName, t.userId))) ==> o.completed
  {
    var key := CacheKey(t.agentName, t.userId);
    var o := Handle(s, cache, t);
    if o.cache != cache {
      var m := Merge(s.fields, Stored(s, cache, key), t.extraction.value);
      assert Stored(s, o.cache, key) == Stamp(m.record, t.stampAt);
      CompleteIff(s.fields, Stamp(m.record, t.stampAt));
      CompleteIff(s.fields, m.record);
    }
  }

  /** A first successful write into an empty slot stores exactly the
      accepted fields of the extraction; every other key reads as undefined. */
  lemma HandleFirstContact(s: Schema, cache: Cache, t: Turn, f: string)
    requires CacheKey(t.agentName, t.userId) !in cache
    requires t.readOk && t.writeOk && t.extraction.Some?
    requires f in s.fields && f in t.extraction.value && t.extraction.value[f] != ""
    ensures var c := Handle(s, cache, t).cache;
      && CacheKey(t.agentName, t.userId) in c
      && forall k :: Lookup(c[CacheKey(t.agentName, t.userId)].record, k) ==
           if k in s.fields && k in t.extraction.value && t.extraction.value[k] != ""
           then Some(t.extraction.value[k]) else None
  {
    var key := CacheKey(t.agentName, t.userId);
    assert Stored(s, cache, key) == Empty(s);
    assert Accepts(Stored(s, cache, key), f, t.extraction.value);
  }

  /** The cache slots a sequence of turns reads and may write. */
  function Slots(turns: seq<Turn>): set<string>
    decreases |turns|
  {
    if turns == [] then {} else {CacheKey(turns[0].agentName, turns[0].userId)} + Slots(turns[1..])
  }

  /** A complete stored record reaches the completion hook on every run that
      does not throw, and nothing is written. */
  lemma HandleCompletedWithoutWrite(s: Schema, cache: Cache, t: Turn)
    requires t.readOk && t.extraction.Some?
    requires Complete(s.fields, Stored(s, cache, CacheKey(t.agentName, t.userId)))
    ensures Handle(s, cache, t) == Outcome(cache, true)
  {
    MergeComplete(s.fields, Stored(s, cache, CacheKey(t.agentName, t.userId)), t.extraction.value);
  }

  /** The store after a sequence of handler invocations, with no entry expiring
      in between. */
  function Replay(s: Schema, cache: Cache, turns: seq<Turn>): (c: Cache)
    // slots are only ever added, and only the senders' slots
    ensures cache.Keys <= c.Keys <= cache.Keys + Slots(turns)
    // a slot no turn addresses keeps its entry
    ensures forall k :: k in cache && k !in Slots(turns) ==> c[k] == cache[k]
    decreases |turns|
  {
    if turns == [] then cache else Replay(s, Handle(s, cache, turns[0]).cache, turns[1..])
  }

  /** Across any sequence of messages, a value once stored for a field is never replaced. */
  lemma {:induction false} ReplayFirstWriteWins(s: Schema, cache: Cache, turns: seq<Turn>, key: string, f: string)
    requires key in cache && Lookup(cache[key].record, f).Some?
    ensures key in Replay(s, cache, turns)
    ensures Lookup(Replay(s, cache, turns)[key].record, f) == Lookup(cache[key].record, f)
    decreases |turns|
  {
    if turns != [] {
      var c1 := Handle(s, cache, turns[0]).cache;
      assert key in c1 && Lookup(c1[key].record, f) == Lookup(cache[key].record, f) by {
        assert Stored(s, cache, key) == cache[key].record;
        if key != CacheKey(turns[0].agentName, turns[0].userId) {
        } else if c1 != cache {
          assert Stored(s, c1, key) == c1[key].record;
        }
      }
      ReplayFirstWriteWins(s, c1, turns[1..], key, f);
    }
  }

  /** Completion is terminal: once the stored record is complete, no later
      message changes its entry. */
  lemma {:induction false} ReplayCompleteIsFinal(s: Schema, cache: Cache, turns: seq<Turn>, key: string)
    requires key in cache && Complete(s.fields, cache[key].record)
    ensures key in Replay(s, cache, turns) && Replay(s, cache, turns)[key] == cache[key]
    decreases |turns|
  {
    if turns != [] {
      var c1 := Handle(s, cache, turns[0]).cache;
      assert key in c1 && c1[key] == cache[key] by {
        if key == CacheKey(turns[0].agentName, turns[0].userId) {
          assert Stored(s, cache, key) == cache[key].record;
        }
      }
      ReplayCompleteIsFinal(s, c1, turns[1..], key);
    }
  }

  /** A written entry lasts one week: once the cache has dropped it, the next
      read yields the empty record and the gate opens again, however complete
      the written record was. */
  lemma WrittenEntryExpires(s: Schema, cache: Cache, t: Turn, now: int)
    requires Handle(s, cache, t).cache != cache
    requires t.writeAt + WeekMs <= now
    requires s.fields != []
    ensures Stored(s, Evict(Handle(s, cache, t).cache, now), CacheKey(t.agentName, t.userId)) == Empty(s)
    ensures Validate(s, Evict(Handle(s, cache, t).cache, now), t.agentName, t.userId, true)
  {
    assert s.fields[0] in s.fields;
  }

  /** After the completion hook fires, the gate keeps the evaluator from running again. */
  lemma CompletedClosesGate(s: Schema, cache: Cache, t: Turn)
    requires Handle(s, cache, t).completed
    ensures !Validate(s, Handle(s, cache, t).cache, t.agentName, t.userId, true)
  {
    var o := Handle(s, cache, t);
    CompleteIff(s.fields, Stored(s, o.cache, CacheKey(t.agentName, t.userId)));
  }
}

=== FILE: nft_request.dfy ===
/** The NFT-request subject: name, description and recipient, with its guidance
    table and status texts. It is stored under the same cache key as the user
    profile. */
module NftRequest {
  import opened Optional
  import opened Seqs
  import opened Schemas
  import opened Records
  import opened Store
  import opened Extraction
  import opened Status
  import UserProfile

  const Fields: seq<string> := ["name", "description", "recipient"]

  const FieldGuidance: map<string, Guidance> := map[
    "name" := Guidance(
      "NFT name",
      "Maserati GranTurismo, Samsung Galaxy S25, Adidas Campus",
      "future plans, past possessions, or aspirational items",
      "Extract only when user directly states the NFT's name"),
    "description" := Guidance(
      "NFT description",
      "A gret car, a smartphone, a pair of shoes",
      "future plans, past possessions, or aspirational items",
      "Extract only when user directly states the NFT's description"),
    "recipient" := Guidance(
      "NFT recipient's Ethereum address for the NFT",
      "0x742d35Cc6634C0532925a3b844Bc454e4438f44e, 0x66f820a414680B5bcda5eECA5dea238543F42054, vitalik.eth, wevm.eth",
      "email addresses, phone numbers, home addresses, or other types of addresses",
      "Extract only when user directly states the NFT's recipient")
  ]

  const NftSchema: Schema := SchemaDef(Fields, FieldGuidance)

  const Header: string := "NFT Information Status:\n\n"

  const Fallback: string := "Error accessing NFT information. Continuing conversation normally."

  const Provider: Subject := Subject(NftSchema, Header, Fallback)

  /** Every NFT field has a guidance entry with all four parts filled in. */
  lemma GuidanceTableComplete()
    ensures GuidanceComplete(NftSchema)
  {
  }

  /** The missing list is exactly the unfilled fields, in the order name, description, recipient. */
  lemma MissingFields(r: Record)
    ensures Missing(Fields, r) ==
      (if Filled(r, "name") then [] else ["name"])
      + (if Filled(r, "description") then [] else ["description"])
      + (if Filled(r, "recipient") then [] else ["recipient"])
  {
  }

  lemma FallbackEndings()
    ensures !EndsWith(Fallback, AllCollected) && !EndsWith(Fallback, OverallGuidance)
  {
  }

  /** On a successful read the NFT status starts with its header and emits
      exactly one tail: the "all collected" status iff name, description and
      recipient are all non-empty, the guidance otherwise. */
  lemma StatusBranches(cache: Cache, agentName: string, userId: string)
    ensures var text := Render(Provider, cache, agentName, userId, true);
      var r := Stored(NftSchema, cache, CacheKey(agentName, userId));
      && StartsWith(text, Header)
      && (EndsWith(text, AllCollected) <==> Filled(r, "name") && Filled(r, "description") && Filled(r, "recipient"))
      && (EndsWith(text, OverallGuidance) <==> !(Filled(r, "name") && Filled(r, "description") && Filled(r, "recipient")))
  {
    GuidanceTableComplete();
    RenderBranches(Provider, cache, agentName, userId);
    var r := Stored(NftSchema, cache, CacheKey(agentName, userId));
    CompleteIff(Fields, r);
    assert (forall f :: f in Fields ==> Filled(r, f)) <==> Filled(r, "name") && Filled(r, "description") && Filled(r, "recipient");
  }

  /** A failed read yields the fixed NFT fallback text, which neither tail ends. */
  lemma StatusOnReadError(cache: Cache, agentName: string, userId: string)
    ensures Render(Provider, cache, agentName, userId, false) == Fallback
    ensures !EndsWith(Fallback, AllCollected) && !EndsWith(Fallback, OverallGuidance)
  {
    FallbackEndings();
  }

  /** A record holding only a name asks for the description and the recipient. */
  lemma NameOnlyMissing(r: Record, name: string)
    requires Lookup(r, "name") == Some(name) && name != ""
    requires Lookup(r, "description") == None && Lookup(r, "recipient") == None
    ensures Missing(Fields, r) == ["description", "recipient"]
  {
    MissingFields(r);
    assert Missing(Fields, r) == [] + ["description"] + ["recipient"];
  }

  /** A first write of a name, under any schema that has a name field, is
      read back by the NFT provider as the NFT's name. */
  lemma NameWriteSeenAsNft(s: Schema, cache: Cache, t: Turn, name: string)
    requires "name" in s.fields
    requires CacheKey(t.agentName, t.userId) !in cache
    requires t.readOk && t.writeOk && t.extraction == Some(map["name" := name]) && name != ""
    ensures var r := Stored(NftSchema, Handle(s, cache, t).cache, CacheKey(t.agentName, t.userId));
      && Lookup(r, "name") == Some(name)
      && Missing(Fields, r) == ["description", "recipient"]
  {
    var key := CacheKey(t.agentName, t.userId);
    HandleFirstContact(s, cache, t, "name");
    var r := Handle(s, cache, t).cache[key].record;
    assert Lookup(r, "name") == Some(name);
    assert Lookup(r, "description") == None && Lookup(r, "recipient") == None;
    NameOnlyMissing(r, name);
  }

  /** Both schemas share one cache slot per agent and user: once the user
      evaluator has stored a user's name in a fresh slot, the NFT provider
      reads it as the NFT's name and asks only for the description and the
      recipient. */
  lemma UserNameReadAsNftName(cache: Cache, t: Turn, name: string)
    requires CacheKey(t.agentName, t.userId) !in cache
    requires t.readOk && t.writeOk && t.extraction == Some(map["name" := name]) && name != ""
    ensures var r := Stored(NftSchema, Handle(UserProfile.UserSchema, cache, t).cache, CacheKey(t.agentName, t.userId));
      && Lookup(r, "name") == Some(name)
      && Missing(Fields, r) == ["description", "recipient"]
  {
    assert "name" in UserProfile.UserSchema.fields;
    NameWriteSeenAsNft(UserProfile.UserSchema, cache, t, name);
  }
}

=== FILE: optional.dfy ===
/** The absent-or-present value used for JavaScript's `undefined` and for
    operations that may fail. */
module Optional {

  datatype Option<+T> = None | Some(value: T)
}

=== FILE: records.dfy ===
/** Subject records: the partially collected data for one subject, with the
    three states a field can be in (undefined, present but empty, present and
    non-empty), and the missing / complete / known views of a record. */
module Records {
  import opened Optional
  import opened Seqs
  import opened Schemas

  /** A record is a JavaScript object: `order` is its own key order (what
      `Object.entries` walks), `values` maps each key to its value, `None`
      standing for a key that holds `undefined`. `lastUpdated` is kept apart
      from the field keys. */
  datatype RecordDef = RecordDef(order: seq<string>, values: map<string, Option<string>>, lastUpdated: Option<int>)

  /** An object has each key once, and its key order lists exactly its keys. */
  ghost predicate WellFormed(r: RecordDef) {
    Distinct(r.order) && forall k :: k in r.values <==> k in r.order
  }

  type Record = r: RecordDef | WellFormed(r) witness RecordDef([], map[], None)

  /** `data[key]`: `None` (undefined) both for an absent key and for a key holding undefined. */
  function Lookup(r: Record, key: string): Option<string> {
    if key in r.values then r.values[key] else None
  }

  /** JavaScript truthiness of `data[key]`: defined and not the empty string. */
  predicate Filled(r: Record, key: string) {
    Lookup(r, key).Some? && Lookup(r, key).value != ""
  }

  /** `getMissingFields`: the schema fields whose value is falsy, in schema order. */
  function Missing(fields: seq<string>, r: Record): (m: seq<string>)
    ensures forall f :: f in m <==> f in fields && !Filled(r, f)
    ensures SubsequenceOf(m, fields)
  {
    Filter(fields, f => !Filled(r, f))
  }

  /** `isDataComplete`: no field is missing. */
  predicate Complete(fields: seq<string>, r: Record) {
    |Missing(fields, r)| == 0
  }

  /** The missing list of a duplicate-free schema has no duplicates. */
  lemma MissingDistinct(s: Schema, r: Record)
    ensures Distinct(Missing(s.fields, r))
  {
    SubsequenceDistinct(Missing(s.fields, r), s.fields);
  }

  /** The missing list is the only duplicate-free-order reading of "the unfilled
      schema fields": any subsequence of the schema with exactly those members is it. */
  lemma MissingUnique(s: Schema, r: Record, m: seq<string>)
    requires SubsequenceOf(m, s.fields)
    requires forall f :: f in m <==> f in s.fields && !Filled(r, f)
    ensures m == Missing(s.fields, r)
  {
    SubsequenceDetermined(m, Missing(s.fields, r), s.fields);
  }

  /** A record is complete exactly when every schema field is filled. */
  lemma CompleteIff(fields: seq<string>, r: Record)
    ensures Complete(fields, r) <==> forall f :: f in fields ==> Filled(r, f)
  {
    var m := Missing(fields, r);
    if !Complete(fields, r) {
      assert m[0] in m;
    }
  }

  /** The empty record (`emptyUserData` / `emptyNftData`): every schema field
      present and undefined, in schema order, and no timestamp. */
  function Empty(s: Schema): (r: Record)
    ensures forall k :: Lookup(r, k) == None
    ensures r.order == s.fields
    ensures r.lastUpdated == None
  {
    RecordDef(s.fields, map f | f in s.fields :: None, None)
  }

  /** An `Object.entries` entry that the status text lists: not `lastUpdated`
      and not undefined. */
  predicate Known(r: Record, key: string) {
    key != "lastUpdated" && Lookup(r, key).Some?
  }

  /** The keys listed under "Current Information", in the object's key order. */
  function KnownKeys(r: Record): (ks: seq<string>)
    ensures forall k :: k in ks <==> k in r.order && Known(r, k)
    ensures SubsequenceOf(ks, r.order)
  {
    Filter(r.order, k => Known(r, k))
  }

  /** A field stored as the empty string is at once missing and known. */
  lemma EmptyStringIsMissingAndKnown(fields: seq<string>, r: Record, f: string)
    requires f in fields && f != "lastUpdated" && Lookup(r, f) == Some("")
    ensures f in Missing(fields, r)
    ensures f in KnownKeys(r)
  {
    assert f in r.values;
  }
}

=== FILE: schemas.dfy ===
/** A field schema: the ordered list of fields a subject record must collect,
    and the guidance shown to the conversation model for each field. */
module Schemas {
  import opened Seqs

  /** One entry of a `FIELD_GUIDANCE` table. */
  datatype Guidance = Guidance(description: string, valid: string, invalid: string, instructions: string)

  datatype SchemaDef = SchemaDef(fields: seq<string>, guidance: map<string, Guidance>)

  /** Field names come from an object-literal key list, so they are distinct. */
  type Schema = s: SchemaDef | Distinct(s.fields) witness SchemaDef([], map[])

  /** Every field has a guidance entry, and each of its four parts is non-empty. */
  ghost predicate GuidanceComplete(s: Schema) {
    forall f :: f in s.fields ==>
      && f in s.guidance
      && s.guidance[f].description != ""
      && s.guidance[f].valid != ""
      && s.guidance[f].invalid != ""
      && s.guidance[f].instructions != ""
  }

  /** `toUpperCase` on a single character, for the ASCII letters. */
  function UpperChar(c: char): char {
    if 'a' <= c <= 'z' then (c as int - 32) as char else c
  }

  /** `key.charAt(0).toUpperCase() + key.slice(1)`. */
  function Capitalise(key: string): (c: string)
    ensures |c| == |key|
    ensures key != [] ==> c[0] == UpperChar(key[0]) && c[1..] == key[1..]
  {
    if key == [] then "" else [UpperChar(key[0])] + key[1..]
  }
}

=== FILE: seqs.dfy ===
/** Sequence vocabulary shared by the model: distinctness, order-preserving
    subsequences, the filter the source applies to its field lists, and the
    string helpers the status text is assembled from. */
module Seqs {

  /** No element occurs twice. */
  ghost predicate Distinct<T>(s: seq<T>) {
    forall i, j :: 0 <= i < j < |s| ==> s[i] != s[j]
  }

  /** `a` can be obtained from `b` by deleting elements, keeping the order of the rest. */
  ghost predicate SubsequenceOf<T>(a: seq<T>, b: seq<T>)
    decreases |b|
  {
    if a == [] then true
    else if b == [] then false
    else (a[0] == b[0] && SubsequenceOf(a[1..], b[1..])) || SubsequenceOf(a, b[1..])
  }

  lemma {:induction false} SubsequenceMembers<T>(a: seq<T>, b: seq<T>)
    requires SubsequenceOf(a, b)
    ensures forall x :: x in a ==> x in b
    decreases |b|
  {
    if a != [] {
      if a[0] == b[0] && SubsequenceOf(a[1..], b[1..]) {
        SubsequenceMembers(a[1..], b[1..]);
        forall x | x in a ensures x in b {
          if x != a[0] {
            assert x in a[1..];
            assert x in b[1..];
          }
        }
      } else {
        SubsequenceMembers(a, b[1..]);
        forall x | x in a ensures x in b {
          assert x in b[1..];
        }
      }
    }
  }

  lemma DistinctTail<T>(s: seq<T>)
    requires Distinct(s) && s != []
    ensures Distinct(s[1..]) && s[0] !in s[1..]
  {
  }

  /** A subsequence of a duplicate-free sequence is duplicate-free. */
  lemma {:induction false} SubsequenceDistinct<T>(a: seq<T>, b: seq<T>)
    requires SubsequenceOf(a, b) && Distinct(b)
    ensures Distinct(a)
    decreases |b|
  {
    if a != [] {
      DistinctTail(b);
      if a[0] == b[0] && SubsequenceOf(a[1..], b[1..]) {
        SubsequenceDistinct(a[1..], b[1..]);
        SubsequenceMembers(a[1..], b[1..]);
        forall i, j | 0 <= i < j < |a| ensures a[i] != a[j] {
          if i == 0 {
            assert a[j] == a[1..][j - 1];
            assert a[j] in a[1..];
          } else {
            assert a[i] == a[1..][i - 1] && a[j] == a[1..][j - 1];
          }
        }
      } else {
        SubsequenceDistinct(a, b[1..]);
      }
    }
  }

  /** Within a duplicate-free sequence, a subsequence is determined by the set of
      elements it keeps: two subsequences with the same members are equal. */
  lemma {:induction false} SubsequenceDetermined<T>(a1: seq<T>, a2: seq<T>, b: seq<T>)
    requires Distinct(b)
    requires SubsequenceOf(a1, b) && SubsequenceOf(a2, b)
    requires forall x :: x in a1 <==> x in a2
    ensures a1 == a2
    decreases |b|
  {
    assert a1 == [] <==> a2 == [] by {
      assert a1 != [] ==> a1[0] in a1;
      assert a2 != [] ==> a2[0] in a2;
    }
    if a1 != [] {
      DistinctTail(b);
      var x := b[0];
      if x in a1 {
        // x cannot come from b[1..], so both sequences start with it.
        if !(a1[0] == x && SubsequenceOf(a1[1..], b[1..])) {
          SubsequenceMembers(a1, b[1..]);
          assert false;
        }
        if !(a2[0] == x && SubsequenceOf(a2[1..], b[1..])) {
          SubsequenceMembers(a2, b[1..]);
          assert false;
        }
        SubsequenceMembers(a1[1..], b[1..]);
        SubsequenceMembers(a2[1..], b[1..]);
        forall y ensures y in a1[1..] <==> y in a2[1..] {
          assert y in a1 <==> y in a2;
          assert y in a1 <==> y == x || y in a1[1..];
          assert y in a2 <==> y == x || y in a2[1..];
        }
        SubsequenceDetermined(a1[1..], a2[1..], b[1..]);
        assert a1 == [a1[0]] + a1[1..];
        assert a2 == [a2[0]] + a2[1..];
      } else {
        assert a1[0] != x && a2[0] != x by {
          assert a1[0] in a1 && a2[0] in a2;
        }
        SubsequenceDetermined(a1, a2, b[1..]);
      }
    }
  }

  /** The elements of `xs` satisfying `p`, in their original order
      (JavaScript's `Array.prototype.filter`). */
  function Filter<T(!new)>(xs: seq<T>, p: T -> bool): (ys: seq<T>)
    ensures forall y :: y in ys <==> y in xs && p(y)
    ensures SubsequenceOf(ys, xs)
    ensures |ys| <= |xs|
    decreases |xs|
  {
    if xs == [] then []
    else
      var rest := Filter(xs[1..], p);
      if p(xs[0]) then
        assert ([xs[0]] + rest)[1..] == rest;
        [xs[0]] + rest
      else rest
  }

  predicate StartsWith(s: string, prefix: string) {
    |prefix| <= |s| && s[..|prefix|] == prefix
  }

  predicate EndsWith(s: string, suffix: string) {
    |suffix| <= |s| && s[|s| - |suffix|..] == suffix
  }

  lemma EndsWithConcat(a: string, b: string)
    ensures EndsWith(a + b, b)
  {
    assert (a + b)[|a + b| - |b|..] == b;
  }

  lemma StartsWithConcat(a: string, b: string)
    ensures StartsWith(a + b, a)
  {
    assert (a + b)[..|a|] == a;
  }

  lemma StartsWithAppend(s: string, prefix: string, t: string)
    requires StartsWith(s, prefix)
    ensures StartsWith(s + t, prefix)
  {
    assert (s + t)[..|prefix|] == s[..|prefix|];
  }

  lemma StartsWithPrepend(t: string, s: string, prefix: string)
    requires StartsWith(s, prefix)
    ensures StartsWith(t + s, t + prefix)
  {
    assert (t + s)[..|t + prefix|] == t + s[..|prefix|];
  }

  lemma EndsWithPrepend(t: string, s: string, suffix: string)
    requires EndsWith(s, suffix)
    ensures EndsWith(t + s, suffix)
  {
    assert (t + s)[|t + s| - |suffix|..] == s[|s| - |suffix|..];
  }

  lemma EndsWithLast(x: string, suffix: string)
    requires EndsWith(x, suffix) && |suffix| > 0
    ensures x[|x| - 1] == suffix[|suffix| - 1]
  {
    assert x[|x| - 1] == x[|x| - |suffix|..][|suffix| - 1];
  }

  lemma EndsWithAppend(s: string, suffix: string, t: string)
    requires EndsWith(s, suffix)
    ensures EndsWith(s + t, suffix + t)
  {
    assert (s + t)[|s + t| - |suffix + t|..] == s[|s| - |suffix|..] + t;
  }

  /** A string framed by a head and a tail. */
  lemma Between(head: string, s: string, tail: string)
    ensures StartsWith(head + s + tail, head) && EndsWith(head + s + tail, tail)
    ensures (head + s + tail)[|head|..|head + s + tail| - |tail|] == s
  {
    assert (head + s + tail)[..|head|] == head;
    assert (head + s + tail)[|head + s|..] == tail;
    assert (head + s + tail)[|head|..|head + s|] == s;
  }

  /** `part` stands in `s` at position `at`. */
  predicate Occurs(s: string, part: string, at: nat) {
    at + |part| <= |s| && s[at..at + |part|] == part
  }

  lemma OccursLast(s: string, part: string)
    ensures Occurs(s + part, part, |s|)
  {
    assert (s + part)[|s|..|s| + |part|] == part;
  }

  lemma OccursAppend(s: string, part: string, at: nat, t: string)
    requires Occurs(s, part, at)
    ensures Occurs(s + t, part, at)
  {
    assert (s + t)[at..at + |part|] == s[at..at + |part|];
  }

  lemma OccursShift(t: string, s: string, part: string, at: nat)
    requires Occurs(s, part, at)
    ensures Occurs(t + s, part, |t| + at)
  {
    assert (t + s)[|t| + at..|t| + at + |part|] == s[at..at + |part|];
  }

  /** Two suffixes with different last characters cannot both end a string. */
  lemma EndingsExclusive(x: string, a: string, b: string)
    requires |a| > 0 && |b| > 0 && a[|a| - 1] != b[|b| - 1]
    requires EndsWith(x, a)
    ensures !EndsWith(x, b)
  {
    EndsWithLast(x, a);
    if EndsWith(x, b) {
      EndsWithLast(x, b);
    }
  }

  /** Two prefixes that differ at some position cannot both start a string. */
  lemma PrefixesDiffer(x: string, p: string, q: string, i: nat)
    requires StartsWith(x, q) && i < |p| && i < |q| && p[i] != q[i]
    ensures !StartsWith(x, p)
  {
    assert x[i] == x[..|q|][i];
  }

  /** JavaScript's `Array.prototype.join(sep)` on strings. */
  function Join(parts: seq<string>, sep: string): string
    decreases |parts|
  {
    if parts == [] then ""
    else if |parts| == 1 then parts[0]
    else parts[0] + sep + Join(parts[1..], sep)
  }

  /** Where the `i`-th part starts in `Join(parts, sep)`: after every earlier
      part and its separator. */
  function JoinOffset(parts: seq<string>, sep: string, i: nat): nat
    requires i < |parts|
    decreases i
  {
    if i == 0 then 0 else |parts[0]| + |sep| + JoinOffset(parts[1..], sep, i - 1)
  }

  /** The joined string holds each part at its offset, a separator right after
      every part but the last, and nothing after the last part. */
  lemma {:induction false} JoinLayout(parts: seq<string>, sep: string, i: nat)
    requires i < |parts|
    ensures Occurs(Join(parts, sep), parts[i], JoinOffset(parts, sep, i))
    ensures i + 1 < |parts| ==> Occurs(Join(parts, sep), sep, JoinOffset(parts, sep, i) + |parts[i]|)
    ensures i + 1 == |parts| ==> |Join(parts, sep)| == JoinOffset(parts, sep, i) + |parts[i]|
    decreases i
  {
    if |parts| == 1 {
      assert Join(parts, sep) == parts[0] + "";
      OccursLast("", parts[0]);
    } else {
      var rest := Join(parts[1..], sep);
      assert Join(parts, sep) == parts[0] + sep + rest;
      if i == 0 {
        OccursLast("", parts[0]);
        OccursAppend(parts[0], parts[0], 0, sep);
        OccursAppend(parts[0] + sep, parts[0], 0, rest);
        OccursLast(parts[0], sep);
        OccursAppend(parts[0] + sep, sep, |parts[0]|, rest);
      } else {
        JoinLayout(parts[1..], sep, i - 1);
        OccursShift(parts[0] + sep, rest, parts[i], JoinOffset(parts[1..], sep, i - 1));
        if i + 1 < |parts| {
          OccursShift(parts[0] + sep, rest, sep, JoinOffset(parts[1..], sep, i - 1) + |parts[i]|);
        }
      }
    }
  }

  /** Concatenation of all parts, in order. */
  function Concat(parts: seq<string>): string
    decreases |parts|
  {
    if parts == [] then "" else parts[0] + Concat(parts[1..])
  }
}

=== FILE: status.dfy ===
/** The status provider and the completion-signal provider: pure renderings of
    the stored record into advisory text for the response generator. The
    rendering goes through a structured report (which fields are known, which
    guidance blocks are due) and then through its text. */
module Status {
  import opened Optional
  import opened Seqs
  import opened Schemas
  import opened Records
  import opened Store

  /** One subject type's provider configuration. */
  datatype Subject = Subject(schema: Schema, header: string, fallback: string)

  /** The guidance block for one missing field. */
  datatype Block = Block(field: string, guidance: Guidance)

  /** The two mutually exclusive tails of the status text. */
  datatype Task = Gather(blocks: seq<Block>) | Collected

  /** Known entries (key, value) in the record's key order, and the task. */
  datatype Report = Report(known: seq<(string, string)>, task: Task)

  function KeysOf(known: seq<(string, string)>): (ks: seq<string>)
    ensures |ks| == |known| && forall i :: 0 <= i < |ks| ==> ks[i] == known[i].0
  {
    seq(|known|, i requires 0 <= i < |known| => known[i].0)
  }

  function FieldsOf(blocks: seq<Block>): (fs: seq<string>)
    ensures |fs| == |blocks| && forall i :: 0 <= i < |fs| ==> fs[i] == blocks[i].field
  {
    seq(|blocks|, i requires 0 <= i < |blocks| => blocks[i].field)
  }

  /** The known entries of a record: each known key with its stored value. */
  function KnownEntries(r: Record): (known: seq<(string, string)>)
    ensures KeysOf(known) == KnownKeys(r)
    ensures forall i :: 0 <= i < |known| ==> Lookup(r, known[i].0) == Some(known[i].1)
  {
    var ks := KnownKeys(r);
    seq(|ks|, i requires 0 <= i < |ks| => assert ks[i] in ks; (ks[i], Lookup(r, ks[i]).value))
  }

  /** One block per field, in order, each with that field's guidance. */
  function GuidanceBlocks(s: Schema, fields: seq<string>): (blocks: seq<Block>)
    requires forall f :: f in fields ==> f in s.guidance
    ensures |blocks| == |fields|
    ensures forall i :: 0 <= i < |fields| ==> blocks[i] == Block(fields[i], s.guidance[fields[i]])
  {
    seq(|fields|, i requires 0 <= i < |fields| => assert fields[i] in fields; Block(fields[i], s.guidance[fields[i]]))
  }

  /** What the provider decides to say about a record, or `None` when some
      missing field has no guidance entry (the lookup throws, and the catch
      answers the fallback text). */
  function Assess(s: Schema, r: Record): (o: Option<Report>)
    ensures o.None? <==> exists f :: f in Missing(s.fields, r) && f !in s.guidance
    ensures o.Some? ==>
      // every known entry, in the object's key order, with its value
      && KeysOf(o.value.known) == KnownKeys(r)
      && (forall i :: 0 <= i < |o.value.known| ==> Lookup(r, o.value.known[i].0) == Some(o.value.known[i].1))
      // the "all collected" tail exactly when the record is complete
      && (o.value.task.Collected? <==> Complete(s.fields, r))
      // otherwise one block per unfilled field, in schema order, with that field's guidance
      && (o.value.task.Gather? ==>
            && FieldsOf(o.value.task.blocks) == Missing(s.fields, r)
            && (forall f :: f in s.fields ==> (f in FieldsOf(o.value.task.blocks) <==> !Filled(r, f)))
            && forall b :: b in o.value.task.blocks ==> b.field in s.guidance && b.guidance == s.guidance[b.field])
  {
    var missing := Missing(s.fields, r);
    if exists f :: f in missing && f !in s.guidance then None
    else
      var task :=
        if missing == [] then Collected
        else Gather(GuidanceBlocks(s, missing));
      Some(Report(KnownEntries(r), task))
  }

  /** With two fields missing, the report carries their two guidance blocks, in order. */
  lemma TwoBlocks(s: Schema, r: Record, a: string, b: string)
    requires Assess(s, r).Some? && Missing(s.fields, r) == [a, b]
    ensures Assess(s, r).value.task == Gather([Block(a, s.guidance[a]), Block(b, s.guidance[b])])
  {
    var task := Assess(s, r).value.task;
    assert !Complete(s.fields, r);
    assert FieldsOf(task.blocks) == [a, b];
    assert task.blocks[0] in task.blocks && task.blocks[1] in task.blocks;
  }

  const CurrentInformation: string := "Current Information:\n"

  /** The closing lines of the gathering tail. */
  const OverallGuidance: string :=
    "Overall Guidance:\n"
    + "- Try to extract all missing information through natural conversation, but be very direct and aggressive in getting that info\n"
    + "- Only extract information when clearly and directly stated by the user\n"
    + "- Verify information is current, not past or future\n"

  /** The "all collected" tail: a status line and a closing line. */
  const AllCollected: string :=
    "Status: " + "All necessary information has been collected.\n"
    + "Continue natural conversation without information gathering."

  /** The opening of the gathering tail, before the agent's name. */
  const TaskOpening: string := "CURRENT TASK FOR "

  /** One known entry, `- ${Key}: ${value}`: the capitalised key, then the value. */
  function KnownLine(entry: (string, string)): (line: string)
    ensures StartsWith(line, "- " + Capitalise(entry.0) + ": ")
    ensures EndsWith(line, entry.1)
    ensures |line| == |entry.0| + |entry.1| + 4
  {
    var prefix := "- " + Capitalise(entry.0) + ": ";
    StartsWithConcat(prefix, entry.1);
    EndsWithConcat(prefix, entry.1);
    prefix + entry.1
  }

  function KnownLines(known: seq<(string, string)>): (lines: seq<string>)
    ensures |lines| == |known| && forall i :: 0 <= i < |known| ==> lines[i] == KnownLine(known[i])
  {
    seq(|known|, i requires 0 <= i < |known| => KnownLine(known[i]))
  }

  /** The "Current Information" section: empty exactly when nothing is known,
      otherwise the heading, the entries' lines joined by "\n", and a blank line. */
  function KnownText(known: seq<(string, string)>): (text: string)
    ensures known == [] <==> text == ""
    ensures known != [] ==> StartsWith(text, CurrentInformation) && EndsWith(text, "\n\n")
    // between the heading and the blank line: every entry's line, in order, one per line
    ensures known != [] ==>
      |CurrentInformation| + 2 <= |text|
      && text[|CurrentInformation|..|text| - 2] == Join(KnownLines(known), "\n")
  {
    if known == [] then ""
    else
      var joined := Join(KnownLines(known), "\n");
      Between(CurrentInformation, joined, "\n\n");
      CurrentInformation + joined + "\n\n"
  }

  /** Five pieces in a row: where each of them stands. */
  lemma FivePieces(a: string, b: string, c: string, d: string, e: string)
    ensures StartsWith(a + b + c + d + e, a)
    ensures Occurs(a + b + c + d + e, b, |a|)
    ensures Occurs(a + b + c + d + e, c, |a| + |b|)
    ensures Occurs(a + b + c + d + e, d, |a| + |b| + |c|)
    ensures EndsWith(a + b + c + d + e, e)
  {
    StartsWithConcat(a, b);
    StartsWithAppend(a + b, a, c);
    StartsWithAppend(a + b + c, a, d);
    StartsWithAppend(a + b + c + d, a, e);
    OccursLast(a, b);
    OccursAppend(a + b, b, |a|, c);
    OccursAppend(a + b + c, b, |a|, d);
    OccursAppend(a + b + c + d, b, |a|, e);
    OccursLast(a + b, c);
    OccursAppend(a + b + c, c, |a| + |b|, d);
    OccursAppend(a + b + c + d, c, |a| + |b|, e);
    OccursLast(a + b + c, d);
    OccursAppend(a + b + c + d, d, |a| + |b| + |c|, e);
    EndsWithConcat(a + b + c + d, e);
  }

  /** One guidance block: the capitalised field name, then the description,
      the valid examples, what not to extract and the instructions, one line
      each, and a blank line. */
  function BlockText(b: Block): (text: string)
    ensures StartsWith(text, Capitalise(b.field) + ":\n")
    ensures Occurs(text, "- Description: " + b.guidance.description + "\n", |b.field| + 2)
    ensures Occurs(text, "- Valid Examples: " + b.guidance.valid + "\n",
                   |b.field| + |b.guidance.description| + 18)
    ensures Occurs(text, "- Do Not Extract: " + b.guidance.invalid + "\n",
                   |b.field| + |b.guidance.description| + |b.guidance.valid| + 37)
    ensures EndsWith(text, "- Instructions: " + b.guidance.instructions + "\n\n")
    ensures |text| == |b.field| + |b.guidance.description| + |b.guidance.valid|
                      + |b.guidance.invalid| + |b.guidance.instructions| + 74
  {
    var head := Capitalise(b.field) + ":\n";
    var description := "- Description: " + b.guidance.description + "\n";
    var valid := "- Valid Examples: " + b.guidance.valid + "\n";
    var invalid := "- Do Not Extract: " + b.guidance.invalid + "\n";
    var instructions := "- Instructions: " + b.guidance.instructions + "\n\n";
    FivePieces(head, description, valid, invalid, instructions);
    head + description + valid + invalid + instructions
  }

  function BlockTexts(blocks: seq<Block>): (texts: seq<string>)
    ensures |texts| == |blocks| && forall i :: 0 <= i < |blocks| ==> texts[i] == BlockText(blocks[i])
  {
    seq(|blocks|, i requires 0 <= i < |blocks| => BlockText(blocks[i]))
  }

  /** The gathering tail between its opening and the overall guidance: it
      names the agent and ends with the blocks, in order. */
  function GatherBody(agentName: string, blocks: seq<Block>): (text: string)
    ensures StartsWith(text, agentName + ":\n")
    // the request to ask the user, and the guidelines heading, right after the agent's name
    ensures Occurs(text, Prompt(agentName), |agentName| + 2)
    ensures EndsWith(text, Concat(BlockTexts(blocks)))
  {
    Middle(agentName + ":\n", Prompt(agentName), Concat(BlockTexts(blocks)));
    agentName + ":\n" + (Prompt(agentName) + Concat(BlockTexts(blocks)))
  }

  /** The request that the agent ask for the missing information, and the
      heading of the guidelines that follow it. */
  function Prompt(agentName: string): string {
    agentName + " should try to prioritize getting this information from the user by asking them questions\n"
    + "Missing Information and Extraction Guidelines:\n\n"
  }

  /** A head, then a middle piece, then the rest. */
  lemma Middle(head: string, middle: string, rest: string)
    ensures StartsWith(head + (middle + rest), head)
    ensures Occurs(head + (middle + rest), middle, |head|)
    ensures EndsWith(head + (middle + rest), rest)
  {
    StartsWithConcat(head, middle + rest);
    OccursLast("", middle);
    OccursAppend(middle, middle, 0, rest);
    OccursShift(head, middle + rest, middle, 0);
    EndsWithConcat(middle, rest);
    EndsWithPrepend(head, middle + rest, rest);
  }

  /** A body that starts with `first`, holds `mid` at `at` and ends with
      `last`, between an opening and a closing. */
  lemma Framed(opening: string, body: string, first: string, mid: string, at: nat, last: string, closing: string)
    requires StartsWith(body, first) && Occurs(body, mid, at) && EndsWith(body, last)
    ensures StartsWith(opening + body + closing, opening + first)
    ensures Occurs(opening + body + closing, mid, |opening| + at)
    ensures EndsWith(opening + body + closing, closing)
    ensures EndsWith(opening + body + closing, last + closing)
  {
    StartsWithPrepend(opening, body, first);
    StartsWithAppend(opening + body, opening + first, closing);
    EndsWithConcat(opening + body, closing);
    EndsWithPrepend(opening, body, last);
    EndsWithAppend(opening + body, last, closing);
    OccursShift(opening, body, mid, at);
    OccursAppend(opening + body, mid, |opening| + at, closing);
  }

  /** One of the two tails: the gathering tail opens with the task line
      naming the agent and closes with the overall guidance. */
  function TaskText(agentName: string, t: Task): (text: string)
    ensures t.Collected? ==> text == AllCollected
    ensures t.Gather? ==> StartsWith(text, TaskOpening + (agentName + ":\n")) && EndsWith(text, OverallGuidance)
    // the guidance blocks, in order, come right before the overall guidance
    ensures t.Gather? ==> EndsWith(text, Concat(BlockTexts(t.blocks)) + OverallGuidance)
    ensures t.Gather? ==> Occurs(text, Prompt(agentName), |TaskOpening| + |agentName| + 2)
  {
    match t
    case Gather(blocks) =>
      var body := GatherBody(agentName, blocks);
      Framed(TaskOpening, body, agentName + ":\n", Prompt(agentName), |agentName| + 2,
             Concat(BlockTexts(blocks)), OverallGuidance);
      TaskOpening + body + OverallGuidance
    case Collected => AllCollected
  }

  /** Everything after the header. */
  function ReportBody(agentName: string, rep: Report): string {
    KnownText(rep.known) + TaskText(agentName, rep.task)
  }

  /** The status text: the header, then the body. It ends with exactly one of
      the two tails, and the body opens with the "Current Information" heading
      exactly when some entry is known. */
  function ReportText(header: string, agentName: string, rep: Report): (text: string)
    ensures StartsWith(text, header)
    ensures EndsWith(text, AllCollected) <==> rep.task.Collected?
    ensures EndsWith(text, OverallGuidance) <==> rep.task.Gather?
    ensures StartsWith(text[|header|..], CurrentInformation) <==> rep.known != []
    // the known section right after the header
    ensures Occurs(text, KnownText(rep.known), |header|)
    // the guidance blocks, in order, right before the overall guidance
    ensures rep.task.Gather? ==> EndsWith(text, Concat(BlockTexts(rep.task.blocks)) + OverallGuidance)
  {
    ReportSections(header, agentName, rep);
    ReportBlocks(header, agentName, rep);
    ReportTails(header, agentName, rep);
    ReportKnownSection(agentName, rep);
    HeadThenRest(header, ReportBody(agentName, rep));
    header + ReportBody(agentName, rep)
  }

  /** The last characters that tell the two tails apart. */
  lemma LastChars()
    ensures |AllCollected| > 0 && AllCollected[|AllCollected| - 1] == '.'
    ensures |OverallGuidance| > 0 && OverallGuidance[|OverallGuidance| - 1] == '\n'
  {
  }

  /** The second characters that tell the heading and the two tails apart. */
  lemma SecondChars()
    ensures |CurrentInformation| > 1 && CurrentInformation[1] == 'u'
    ensures |AllCollected| > 1 && AllCollected[1] == 't'
    ensures |TaskOpening| > 1 && TaskOpening[1] == 'U'
  {
  }

  /** Whatever precedes them, the closing texts of the two tails rule each other out. */
  lemma TailEndings(header: string, known: string, body: string)
    ensures var x := header + (known + AllCollected);
      EndsWith(x, AllCollected) && !EndsWith(x, OverallGuidance)
    ensures var x := header + (known + (TaskOpening + body + OverallGuidance));
      EndsWith(x, OverallGuidance) && !EndsWith(x, AllCollected)
  {
    LastChars();
    EndsWithConcat(known, AllCollected);
    EndsWithPrepend(header, known + AllCollected, AllCollected);
    EndingsExclusive(header + (known + AllCollected), AllCollected, OverallGuidance);
    var gather := TaskOpening + body + OverallGuidance;
    EndsWithConcat(TaskOpening + body, OverallGuidance);
    EndsWithPrepend(known, gather, OverallGuidance);
    EndsWithPrepend(header, known + gather, OverallGuidance);
    EndingsExclusive(header + (known + gather), OverallGuidance, AllCollected);
  }

  /** A header, a known section and a tail ending with `suffix`. */
  lemma Sections(header: string, known: string, tail: string, suffix: string)
    requires EndsWith(tail, suffix)
    ensures Occurs(header + (known + tail), known, |header|)
    ensures EndsWith(header + (known + tail), suffix)
  {
    Middle(header, known, tail);
    EndsWithPrepend(known, tail, suffix);
    EndsWithPrepend(header, known + tail, suffix);
  }

  lemma HeadThenRest(head: string, rest: string)
    ensures StartsWith(head + rest, head) && (head + rest)[|head|..] == rest
  {
    assert (head + rest)[..|head|] == head;
  }

  /** The known section follows the header. */
  lemma ReportSections(header: string, agentName: string, rep: Report)
    ensures Occurs(header + ReportBody(agentName, rep), KnownText(rep.known), |header|)
  {
    Middle(header, KnownText(rep.known), TaskText(agentName, rep.task));
  }

  /** The guidance blocks precede the overall guidance. */
  lemma ReportBlocks(header: string, agentName: string, rep: Report)
    ensures rep.task.Gather? ==>
      EndsWith(header + ReportBody(agentName, rep), Concat(BlockTexts(rep.task.blocks)) + OverallGuidance)
  {
    if rep.task.Gather? {
      var tail := TaskText(agentName, rep.task);
      Sections(header, KnownText(rep.known), tail, Concat(BlockTexts(rep.task.blocks)) + OverallGuidance);
    }
  }

  /** The text's ending tells which of the two tails was emitted. */
  lemma ReportTails(header: string, agentName: string, rep: Report)
    ensures EndsWith(header + ReportBody(agentName, rep), AllCollected) <==> rep.task.Collected?
    ensures EndsWith(header + ReportBody(agentName, rep), OverallGuidance) <==> rep.task.Gather?
  {
    match rep.task
    case Collected =>
      TailEndings(header, KnownText(rep.known), "");
    case Gather(blocks) =>
      TailEndings(header, KnownText(rep.known), GatherBody(agentName, blocks));
  }

  /** Neither tail starts like the "Current Information" heading. */
  lemma OpeningsDiffer(body: string, tail: string)
    ensures !StartsWith(AllCollected, CurrentInformation)
    ensures !StartsWith(TaskOpening + body + tail, CurrentInformation)
  {
    SecondChars();
    assert AllCollected[..|AllCollected|] == AllCollected;
    PrefixesDiffer(AllCollected, CurrentInformation, AllCollected, 1);
    StartsWithConcat(TaskOpening, body);
    StartsWithAppend(TaskOpening + body, TaskOpening, tail);
    PrefixesDiffer(TaskOpening + body + tail, CurrentInformation, TaskOpening, 1);
  }

  /** Neither tail opens like the "Current Information" heading. */
  lemma TaskOpensDifferently(agentName: string, t: Task)
    ensures !StartsWith(TaskText(agentName, t), CurrentInformation)
  {
    match t
    case Collected =>
      OpeningsDiffer("", "");
    case Gather(blocks) =>
      SecondChars();
      PrefixesDiffer(TaskText(agentName, t), CurrentInformation, TaskOpening + (agentName + ":\n"), 1);
  }

  /** A known section followed by a tail that does not open like its heading. */
  lemma SectionThenTail(known: string, tail: string, hasKnown: bool)
    requires hasKnown ==> StartsWith(known, CurrentInformation)
    requires !hasKnown ==> known == "" && !StartsWith(tail, CurrentInformation)
    ensures StartsWith(known + tail, CurrentInformation) <==> hasKnown
  {
    if hasKnown {
      StartsWithAppend(known, CurrentInformation, tail);
    } else {
      assert known + tail == tail;
    }
  }

  /** The text after the header opens with "Current Information" iff some entry is known. */
  lemma ReportKnownSection(agentName: string, rep: Report)
    ensures StartsWith(ReportBody(agentName, rep), CurrentInformation) <==> rep.known != []
  {
    TaskOpensDifferently(agentName, rep.task);
    SectionThenTail(KnownText(rep.known), TaskText(agentName, rep.task), rep.known != []);
  }

  /** `provider.get`: the status text for the sender's record. */
  function Render(subj: Subject, cache: Cache, agentName: string, userId: string, readOk: bool): (text: string)
    // a failed read is answered with the fixed fallback text
    ensures !readOk ==> text == subj.fallback
    ensures readOk && GuidanceComplete(subj.schema) ==> StartsWith(text, subj.header)
  {
    match Load(subj.schema, Fetch(cache, CacheKey(agentName, userId), readOk))
    case None => subj.fallback
    case Some(r) =>
      match Assess(subj.schema, r)
      case None => subj.fallback
      case Some(rep) => ReportText(subj.header, agentName, rep)
  }

  /** With a guidance-complete schema, a successful read is rendered from the
      report of the stored record. */
  lemma RenderReport(subj: Subject, cache: Cache, agentName: string, userId: string)
    requires GuidanceComplete(subj.schema)
    ensures var r := Stored(subj.schema, cache, CacheKey(agentName, userId));
      && Assess(subj.schema, r).Some?
      && Render(subj, cache, agentName, userId, true) == ReportText(subj.header, agentName, Assess(subj.schema, r).value)
  {
    LoadAvailable(subj.schema, cache, CacheKey(agentName, userId), true);
  }

  /** With a single known entry, the rendered text is the header, the heading
      with that entry's line and a blank line, then the tail. */
  lemma RenderOneKnown(subj: Subject, cache: Cache, agentName: string, userId: string, entry: (string, string), task: Task)
    requires GuidanceComplete(subj.schema)
    requires Assess(subj.schema, Stored(subj.schema, cache, CacheKey(agentName, userId))) == Some(Report([entry], task))
    ensures Render(subj, cache, agentName, userId, true)
         == subj.header + ((CurrentInformation + KnownLine(entry) + "\n\n") + TaskText(agentName, task))
  {
    RenderReport(subj, cache, agentName, userId);
    OneKnownText(subj.header, agentName, entry, task);
  }

  lemma OneKnownText(header: string, agentName: string, entry: (string, string), task: Task)
    ensures ReportText(header, agentName, Report([entry], task))
         == header + ((CurrentInformation + KnownLine(entry) + "\n\n") + TaskText(agentName, task))
  {
    assert KnownLines([entry]) == [KnownLine(entry)];
    assert Join([KnownLine(entry)], "\n") == KnownLine(entry);
  }

  /** Exactly one of the two tails is emitted: the text ends with the "all
      collected" status iff the stored record is complete, and with the
      overall guidance iff it is not. */
  lemma RenderBranches(subj: Subject, cache: Cache, agentName: string, userId: string)
    requires GuidanceComplete(subj.schema)
    ensures var text := Render(subj, cache, agentName, userId, true);
      var r := Stored(subj.schema, cache, CacheKey(agentName, userId));
      && (EndsWith(text, AllCollected) <==> Complete(subj.schema.fields, r))
      && (EndsWith(text, OverallGuidance) <==> !Complete(subj.schema.fields, r))
  {
    RenderReport(subj, cache, agentName, userId);
  }

  /** The "Current Information" heading follows the header exactly when some
      entry other than `lastUpdated` is defined. */
  lemma RenderKnownSection(subj: Subject, cache: Cache, agentName: string, userId: string)
    requires GuidanceComplete(subj.schema)
    ensures var text := Render(subj, cache, agentName, userId, true);
      var r := Stored(subj.schema, cache, CacheKey(agentName, userId));
      && StartsWith(text, subj.header)
      && (StartsWith(text[|subj.header|..], CurrentInformation) <==> exists k :: k in r.order && Known(r, k))
  {
    RenderReport(subj, cache, agentName, userId);
    var r := Stored(subj.schema, cache, CacheKey(agentName, userId));
    var rep := Assess(subj.schema, r).value;
    ReportKnownSection(agentName, rep);
    if KnownKeys(r) != [] {
      assert KnownKeys(r)[0] in KnownKeys(r);
    }
    assert rep.known == [] <==> KeysOf(rep.known) == [];
  }
  /** The rendered text of a successful read holds the stored record's known
      section right after the header and, when the record is incomplete, ends
      with one guidance block per missing field, in schema order, and then the
      overall guidance. */
  lemma RenderContents(subj: Subject, cache: Cache, agentName: string, userId: string)
    requires GuidanceComplete(subj.schema)
    ensures var text := Render(subj, cache, agentName, userId, true);
      var r := Stored(subj.schema, cache, CacheKey(agentName, userId));
      && Occurs(text, KnownText(KnownEntries(r)), |subj.header|)
      && (!Complete(subj.schema.fields, r) ==>
            EndsWith(text, Concat(BlockTexts(GuidanceBlocks(subj.schema, Missing(subj.schema.fields, r)))) + OverallGuidance))
  {
    RenderReport(subj, cache, agentName, userId);
    AssessParts(subj.schema, Stored(subj.schema, cache, CacheKey(agentName, userId)));
  }

  /** With a guidance-complete schema, the report holds the record's known
      entries and, when the record is incomplete, the missing fields' blocks. */
  lemma AssessParts(s: Schema, r: Record)
    requires GuidanceComplete(s)
    ensures Assess(s, r).Some?
    ensures Assess(s, r).value.known == KnownEntries(r)
    ensures !Complete(s.fields, r) ==> Assess(s, r).value.task == Gather(GuidanceBlocks(s, Missing(s.fields, r)))
  {
    assert forall f :: f in Missing(s.fields, r) ==> f in s.guidance;
  }


  /** `userDataCompletionProvider.get`: the directive once the record is
      complete, the empty string otherwise and on a failed read. */
  function CompletionSignal(s: Schema, directive: string, cache: Cache, agentName: string, userId: string, readOk: bool): (text: string)
    ensures readOk && Complete(s.fields, Stored(s, cache, CacheKey(agentName, userId))) ==> text == directive
    ensures !(readOk && Complete(s.fields, Stored(s, cache, CacheKey(agentName, userId)))) ==> text == ""
  {
    LoadAvailable(s, cache, CacheKey(agentName, userId), readOk);
    match Load(s, Fetch(cache, CacheKey(agentName, userId), readOk))
    case None => ""
    case Some(r) => if Complete(s.fields, r) then directive else ""
  }

  /** The two providers agree: the completion directive is given exactly when
      the status text carries the "all collected" tail. */
  lemma CompletionAgreesWithStatus(subj: Subject, directive: string, cache: Cache, agentName: string, userId: string, readOk: bool)
    requires GuidanceComplete(subj.schema)
    requires directive != "" && !EndsWith(subj.fallback, AllCollected)
    ensures CompletionSignal(subj.schema, directive, cache, agentName, userId, readOk) != ""
        <==> EndsWith(Render(subj, cache, agentName, userId, readOk), AllCollected)
  {
    if readOk {
      RenderBranches(subj, cache, agentName, userId);
    }
  }
}

=== FILE: store.dfy ===
/** The progress store: the runtime's key-value cache as seen by this core.
    Reads may fail; a miss reads as the schema's empty record. Expiry is
    enforced by the cache itself and is not modelled here: an entry only
    carries the `expires` value it was written with. */
module Store {
  import opened Optional
  import opened Schemas
  import opened Records

  datatype Entry = Entry(record: Record, expires: int)

  type Cache = map<string, Entry>

  /** `getCacheKey`: `${agentName}/${userId}/data`. */
  function CacheKey(agentName: string, userId: string): string {
    agentName + "/" + userId + "/data"
  }

  /** What `cacheManager.get` produced. */
  datatype Fetched = Hit(record: Record) | Miss | Failed

  function Fetch(cache: Cache, key: string, available: bool): Fetched {
    if !available then Failed
    else if key in cache then Hit(cache[key].record)
    else Miss
  }

  /** `(await cacheManager.get(key)) || { ...empty }`, with a thrown read as `None`. */
  function Load(s: Schema, f: Fetched): Option<Record> {
    match f
    case Hit(r) => Some(r)
    case Miss => Some(Empty(s))
    case Failed => None
  }

  /** The record a successful read yields for `key`. */
  function Stored(s: Schema, cache: Cache, key: string): Record {
    if key in cache then cache[key].record else Empty(s)
  }

  lemma LoadAvailable(s: Schema, cache: Cache, key: string, available: bool)
    ensures Load(s, Fetch(cache, key, available)) == if available then Some(Stored(s, cache, key)) else None
  {
  }

  /** The cache's own expiry, as this model assumes the cache manager enforces
      it: at time `now`, every entry whose `expires` time has been reached is
      gone, and every other entry is untouched. */
  function Evict(cache: Cache, now: int): (c: Cache)
    ensures forall k :: k in c <==> k in cache && now < cache[k].expires
    ensures forall k :: k in c ==> c[k] == cache[k]
  {
    map k | k in cache && now < cache[k].expires :: cache[k]
  }

  /** The index of the first '/' in a string, or its length when there is none. */
  function FirstSlash(s: string): (i: nat)
    ensures i <= |s|
    ensures forall j :: 0 <= j < i ==> s[j] != '/'
    ensures i < |s| ==> s[i] == '/'
  {
    if s == [] then 0
    else if s[0] == '/' then 0
    else 1 + FirstSlash(s[1..])
  }

  lemma {:induction false} FirstSlashAfterPrefix(a: string, rest: string)
    requires '/' !in a && rest != [] && rest[0] == '/'
    ensures FirstSlash(a + rest) == |a|
  {
    var s := a + rest;
    assert s[|a|] == '/';
    assert forall j :: 0 <= j < |a| ==> s[j] == a[j] && a[j] in a;
  }

  /** Keys of agents whose names contain no '/' never collide: the key
      determines both the agent name and the user id. */
  lemma {:induction false} CacheKeyInjective(a1: string, u1: string, a2: string, u2: string)
    requires '/' !in a1 && '/' !in a2
    requires CacheKey(a1, u1) == CacheKey(a2, u2)
    ensures a1 == a2 && u1 == u2
  {
    var k := CacheKey(a1, u1);
    assert k == a1 + ("/" + u1 + "/data");
    assert k == a2 + ("/" + u2 + "/data");
    FirstSlashAfterPrefix(a1, "/" + u1 + "/data");
    FirstSlashAfterPrefix(a2, "/" + u2 + "/data");
    assert a1 == k[..|a1|];
    assert a2 == k[..|a2|];
    var t1 := u1 + "/data";
    var t2 := u2 + "/data";
    assert k[|a1| + 1..] == t1;
    assert k[|a2| + 1..] == t2;
    assert u1 == t1[..|t1| - 5];
    assert u2 == t2[..|t2| - 5];
  }

  /** With a '/' in the agent name, two different agent/user pairs share a key. */
  lemma CacheKeyCollision()
    ensures CacheKey("a/b", "c") == CacheKey("a", "b/c")
  {
  }
}

=== FILE: user_profile.dfy ===
/** The user-profile subject: name, location and occupation, with its guidance
    table, its status texts and the completion directive. */
module UserProfile {
  import opened Optional
  import opened Seqs
  import opened Schemas
  import opened Records
  import opened Store
  import opened Extraction
  import opened Status

  const Fields: seq<string> := ["name", "location", "occupation"]

  const FieldGuidance: map<string, Guidance> := map[
    "name" := Guidance(
      "User's full name",
      "John Smith, Maria Garcia",
      "nicknames, usernames, other people's names, or partial names",
      "Extract only when user directly states their own name"),
    "location" := Guidance(
      "Current place of residence",
      "Seattle WA, London UK, Toronto",
      "places visited, previous homes, or future plans",
      "Extract only current residence location, not temporary or planned locations"),
    "occupation" := Guidance(
      "Current profession or job",
      "software engineer, teacher, nurse, business owner",
      "past jobs, aspirational roles, or hobbies",
      "Extract only current primary occupation or profession")
  ]

  const UserSchema: Schema := SchemaDef(Fields, FieldGuidance)

  const Header: string := "User Information Status:\n\n"

  const Fallback: string := "Error accessing user information. Continuing conversation normally."

  const Directive: string :=
    "If you haven't already told the user, tell them that the secret password is IAMSNOOP. "
    + "Ignore this if they already know that. Prioritize it if it's not found in the recent conversation."

  const Provider: Subject := Subject(UserSchema, Header, Fallback)

  /** Every user field has a guidance entry with all four parts filled in. */
  lemma GuidanceTableComplete()
    ensures GuidanceComplete(UserSchema)
  {
  }

  /** The missing list is exactly the unfilled fields, in the order name, location, occupation. */
  lemma MissingFields(r: Record)
    ensures Missing(Fields, r) ==
      (if Filled(r, "name") then [] else ["name"])
      + (if Filled(r, "location") then [] else ["location"])
      + (if Filled(r, "occupation") then [] else ["occupation"])
  {
  }

  /** `isDataComplete` holds iff all three fields are non-empty. */
  lemma DataCompleteIff(r: Record)
    ensures Complete(Fields, r) <==> Filled(r, "name") && Filled(r, "location") && Filled(r, "occupation")
  {
    MissingFields(r);
  }

  /** A user with no cache entry reads as `emptyUserData`, so extraction runs. */
  lemma ValidateOnFirstContact(cache: Cache, agentName: string, userId: string)
    requires CacheKey(agentName, userId) !in cache
    ensures Validate(UserSchema, cache, agentName, userId, true)
    ensures Stored(UserSchema, cache, CacheKey(agentName, userId)) == Empty(UserSchema)
  {
    assert "name" in UserSchema.fields;
  }

  lemma FallbackEndings()
    ensures !EndsWith(Fallback, AllCollected) && !EndsWith(Fallback, OverallGuidance)
  {
  }

  /** The evaluator's gate is open exactly when the status text carries the
      gathering tail; a failed read closes the gate and yields the fallback. */
  lemma ValidateAgreesWithStatus(cache: Cache, agentName: string, userId: string, readOk: bool)
    ensures Validate(UserSchema, cache, agentName, userId, readOk)
        <==> EndsWith(Render(Provider, cache, agentName, userId, readOk), OverallGuidance)
  {
    FallbackEndings();
    if readOk {
      RenderBranches(Provider, cache, agentName, userId);
      CompleteIff(Fields, Stored(UserSchema, cache, CacheKey(agentName, userId)));
    }
  }

  /** The completion provider answers the directive exactly when the status
      provider reports that everything has been collected. */
  lemma CompletionMatchesStatus(cache: Cache, agentName: string, userId: string, readOk: bool)
    ensures CompletionSignal(UserSchema, Directive, cache, agentName, userId, readOk) == Directive
        <==> EndsWith(Render(Provider, cache, agentName, userId, readOk), AllCollected)
    ensures CompletionSignal(UserSchema, Directive, cache, agentName, userId, readOk) != Directive
        ==> CompletionSignal(UserSchema, Directive, cache, agentName, userId, readOk) == ""
  {
    FallbackEndings();
    CompletionAgreesWithStatus(Provider, Directive, cache, agentName, userId, readOk);
  }

  /** A record in schema key order holding a name and nothing else, such as
      `{ name: "Alice", location: undefined, occupation: undefined }`. */
  predicate NameOnly(r: Record, name: string) {
    && r.order == Fields
    && name != ""
    && Lookup(r, "name") == Some(name)
    && Lookup(r, "location") == None
    && Lookup(r, "occupation") == None
  }

  lemma NameOnlyMissing(r: Record, name: string)
    requires NameOnly(r, name)
    ensures Missing(Fields, r) == ["location", "occupation"]
  {
    MissingFields(r);
    assert Missing(Fields, r) == [] + ["location"] + ["occupation"];
  }

  lemma NameOnlyKnown(r: Record, name: string)
    requires NameOnly(r, name)
    ensures KnownKeys(r) == ["name"]
  {
    assert SubsequenceOf(["name"], r.order) by {
      assert SubsequenceOf([], r.order[1..]);
    }
    assert Known(r, "name") && !Known(r, "location") && !Known(r, "occupation");
    SubsequenceDetermined(KnownKeys(r), ["name"], r.order);
  }

  lemma NameOnlyEntries(r: Record, name: string)
    requires NameOnly(r, name)
    ensures Assess(UserSchema, r).Some?
    ensures Assess(UserSchema, r).value.known == [("name", name)]
  {
    NameOnlyKnown(r, name);
    GuidanceTableComplete();
    var known := Assess(UserSchema, r).value.known;
    assert KeysOf(known) == ["name"];
  }

  lemma NameOnlyBlocks(r: Record, name: string)
    requires NameOnly(r, name)
    ensures Assess(UserSchema, r).Some?
    ensures Assess(UserSchema, r).value.task
         == Gather([Block("location", FieldGuidance["location"]), Block("occupation", FieldGuidance["occupation"])])
  {
    NameOnlyMissing(r, name);
    GuidanceTableComplete();
    TwoBlocks(UserSchema, r, "location", "occupation");
  }

  /** The known-information line for a name. */
  lemma NameLine(name: string)
    ensures KnownLine(("name", name)) == "- Name: " + name
  {
    var c := Capitalise("name");
    assert c == "Name" by {
      assert c[0] == 'N' && c[1..] == "ame";
      assert c == [c[0]] + c[1..];
    }
  }

  /** A user who has only given a name sees it listed as known, and is asked
      for the location, then the occupation. */
  lemma NameOnlyStatus(r: Record, name: string)
    requires NameOnly(r, name)
    ensures var rep := Assess(UserSchema, r);
      && rep.Some?
      && rep.value.known == [("name", name)]
      && KnownLine(rep.value.known[0]) == "- Name: " + name
      && rep.value.task == Gather([Block("location", FieldGuidance["location"]), Block("occupation", FieldGuidance["occupation"])])
  {
    NameOnlyEntries(r, name);
    NameOnlyBlocks(r, name);
    NameLine(name);
  }

  /** The status text for a user who has only given a name: the header, the
      name listed as known, then the gathering tail with the location block
      and the occupation block. */
  lemma NameOnlyText(cache: Cache, agentName: string, userId: string, name: string)
    requires NameOnly(Stored(UserSchema, cache, CacheKey(agentName, userId)), name)
    ensures Render(Provider, cache, agentName, userId, true)
         == Header + ((CurrentInformation + ("- Name: " + name) + "\n\n")
              + TaskText(agentName, Gather([Block("location", FieldGuidance["location"]),
                                            Block("occupation", FieldGuidance["occupation"])])))
  {
    var blocks := [Block("location", FieldGuidance["location"]), Block("occupation", FieldGuidance["occupation"])];
    NameOnlyStatus(Stored(UserSchema, cache, CacheKey(agentName, userId)), name);
    GuidanceTableComplete();
    RenderOneKnown(Provider, cache, agentName, userId, ("name", name), Gather(blocks));
  }

  /** A stored name is kept when a later message yields a different one, and
      with nothing else extracted the store is left as it was. */
  lemma NameNotReplaced(cache: Cache, t: Turn, other: string)
    requires CacheKey(t.agentName, t.userId) in cache
    requires Lookup(cache[CacheKey(t.agentName, t.userId)].record, "name").Some?
    requires t.extraction == Some(map["name" := other])
    ensures Handle(UserSchema, cache, t).cache == cache
  {
    assert !Learns(UserSchema, cache, t);
  }
}
